=== FILE: README.md ===
# Pet feeder firmware, modelled in Dafny

The firmware runs on an ATtiny-class AVR and turns a dispensing motor on a
schedule. A watchdog interrupt wakes the CPU once a second and counts the
second in `seconds_since_last_spin`. Every tenth second the main loop powers
the dial and reads it. The dial is four pins on PINA, giving speeds 0..15.
From it the loop computes a waiting time of one hour plus 40 minutes per
speed step. Once the counter reaches that time, the loop runs the motor for
12 s and resets the counter. A push button on INT0 (PB2) dispenses by hand:
the motor runs while the button is held, and the counter resets. At boot the
motor wiggles six times. A bit-banged serial line carries debug text.

The model has six modules:

- `Bits` covers the register macros `SET_BIT`, `CLEAR_BIT` and `IS_SET` on
  `bv8` registers. It checks them against an arithmetic reading of bits.
- `Hardware` holds the machine state: the counter, the PORTA register and the
  sleep flag. It defines the output events (motor and power-gate on/off,
  busy-waits, sleep) and the helpers built from them: `dispense`,
  `bootpulse`, `wakeup`, `delay_s` and `get_speed`. Each helper is modelled
  as the event trace it performs. `ApplyAll` gives the register state a
  trace leaves.
- `Feeder` models the watchdog and button interrupt handlers, one pass of the
  main loop, the boot sequence, arbitrary interleavings of these, and the
  wake-up schedule.
- `SoftUart` models `usart_putchar` as a sequence of line segments: start
  bit, eight data bits LSB first, and stop bit(s). It also defines a
  receiver that decodes frames.
- `DebugOut` models `dbg_putstring`, `dbg_putstring_nl` and `dbg_putint`,
  including the `itoa` text in the 7-byte buffer.
- `Wrappers` holds the `Option` type. It stands for a possibly null string
  pointer and for the receiver's "not a frame".

Modelling choices:

- Interrupt handlers are atomic events between main-loop passes.
- avr-gcc's 16-bit `int` is modelled explicitly: `Int16`, `AsSigned16` and
  `SignExtend`.
- The 32-bit `long` counter is an unbounded integer.
  `Feeder.ScheduleKeepsCounterBounded` shows it stays in 0..39599 under the
  wake-up schedule. This holds with the intended threshold and with the one
  main.c:225 actually computes, so its width never matters.
- The threshold on main.c:225 is computed in 16-bit `int` and overflows for
  dial settings 13..15. The model keeps the intended formula (`Threshold`)
  and the formula as written (`ThresholdAsWritten`); see "## Findings".
  `Feeder.LoopIteration` and the boot lemmas use the intended one. The event
  runs (`Feeder.Step`, `Feeder.Run`) and the wake-up schedule take a
  `Formula` that selects either. The claim that dial 15 waits
  39600 s holds for the intended formula only.

## Model

| member | source | states |
|---|---|---|
| Bits.IsSet | libs/macros.h:5 | `IS_SET` yields 0 or 1, and 1 exactly when the bit is set in the byte |
| Bits.IsSetIsBitOf | libs/macros.h:5 | `IS_SET(b, k)` equals the k-th binary digit of the number b |
| Bits.SetBit | libs/macros.h:3 | `SET_BIT` makes the bit 1 and leaves every other bit alone; on a set bit it changes nothing |
| Bits.ClearBit | libs/macros.h:4 | `CLEAR_BIT` makes the bit 0 and leaves every other bit alone; on a clear bit it changes nothing |
| Hardware.Apply | main.c:62-90 | motor_on/motor_off switch PA7 and keep the power gate; pwr_on/pwr_off switch PA5 and keep the motor; a delay changes nothing; the counter is never touched |
| Hardware.DispenseSteps | main.c:75-78 | the number of 15 ms waits is the least that covers `ms`, and 0 when `ms` is not positive |
| Hardware.Dispense | main.c:72-80 | `dispense(ms)` switches the motor on first and off last, with exactly the waits of its 15 ms loop (`DispenseDelays(ms)`) in between |
| Hardware.RunDispense | main.c:72-80 | the `while (ms > 0)` loop produces motor on, exactly `DispenseSteps(ms)` waits of 15 ms, then motor off |
| Hardware.DispenseRunsMotor | main.c:72-80 | during every step of a dispense the motor runs; afterwards it is off; the power gate and sleep state are unchanged |
| Hardware.BootPulse | main.c:95-101 | `bootpulse()` is four events: motor on, a wait, motor off, a wait |
| Hardware.Wakeup | main.c:103-108 | `wakeup()` is 26 events, opening with motor on and closing with motor off |
| Hardware.BootPulseStopsOnce | main.c:95-101 | one boot pulse stops the motor exactly once and leaves it off, whatever its state before |
| Hardware.RepeatedPulses | main.c:106 | n boot pulses stop the motor n times and leave the power gate as it was |
| Hardware.WakeupSixPulses | main.c:103-108 | `wakeup()` completes exactly six motor pulses, ends with the motor off and does not touch the power gate |
| Hardware.DelaySeconds | main.c:110-118 | `delay_s(s)` is ten 100 ms waits per second, and nothing when s is not positive |
| Hardware.GetSpeed | main.c:120-128 | the dial value is below 16; its bits 0..3 are PA3, PA2, PA1 and PA0 |
| Hardware.GetSpeedValue | main.c:120-128 | only the four dial pins matter; the value is 8·PA0 + 4·PA1 + 2·PA2 + PA3 |
| Hardware.GetSpeedInvolution | main.c:120-128 | reading the dial reverses the four low bits, so applying it twice gives back the pins, and every value 0..15 is the speed read from its own reversal |
| Hardware.SetupDdra | main.c:130-140 | `setup()` makes the motor pin an output and the four dial pins inputs, and leaves bits 4..6 of DDRA as they were |
| Hardware.ConfigureDdra | main.c:196-207 | after `main`'s configuration exactly the motor pin, and in a debug build the serial TX pin, are outputs; the power-gate pin PA5 is not an output |
| Hardware.ConfigureDdraIntended | main.c:37 | with the power-gate direction set as intended, exactly the motor pin, the power-gate pin and in a debug build the TX pin are outputs |
| Feeder.Int16 | main.c:225 | a 16-bit `int` result lies in -32768..32767, is congruent to the exact value mod 65536, and equals it when it fits |
| Feeder.Speed | main.c:224 | the dial setting is at most 15 |
| Feeder.Threshold | main.c:225 | the intended waiting time is at least an hour, a multiple of the 10 s poll interval, and at most 39600 s for speeds up to 15 |
| Feeder.ThresholdStrictlyMonotone | main.c:225 | a higher dial setting waits longer, by exactly 2400 s per step |
| Feeder.ThresholdAsWritten | main.c:225 | the 16-bit computation lies in the `int` range, equals the intended waiting time up to speed 12, and is negative for speeds 13..15 |
| Feeder.ThresholdAsWrittenAgrees | main.c:225 | up to speed 12, the 16-bit computation gives the intended waiting time |
| Feeder.ThresholdAsWrittenOverflows | main.c:225 | for speeds 13, 14 and 15 the 16-bit computation gives the negative values -30736, -28336 and -25936 |
| Feeder.Tick | main.c:176-181 | the watchdog handler adds one to the counter, wakes the CPU and leaves the outputs alone |
| Feeder.HeldPolls | main.c:189-191 | the handler's busy loop stops at the first reading with PB2 clear; every earlier reading had it set |
| Feeder.OverrideHoldsMotor | main.c:188-192 | during an override the power gate is on and the motor runs after every held reading; at the end the motor is off and the power gate on |
| Feeder.Override | main.c:184-194 | the button handler leaves the counter at 0, the power gate on, the motor off and the CPU awake, however long the button was held |
| Feeder.LoopBody | main.c:216-248 | a loop pass ends powered down and asleep. Off-poll seconds only power down. A pass dispenses exactly when the counter is a multiple of 10 and at least the threshold; it then resets the counter and otherwise keeps it. It leaves the motor running only if it was already running and nothing was dispensed |
| Feeder.LoopIteration | main.c:216-248 | with the dial's intended threshold, a pass dispenses exactly at a poll second at or past the threshold, and resets the counter exactly then |
| Feeder.LoopIterationAsWritten | main.c:224-242 | with the 16-bit threshold, a pass dispenses exactly at a poll second at or past that threshold |
| Feeder.DispensingPass | main.c:238-242 | a dispensing pass is power on, 1 ms settle, motor on, 800 waits of 15 ms, motor off, power off, sleep |
| Feeder.AsWrittenAgreesBelow13 | main.c:225 | below dial setting 13 the as-written loop pass is identical to the intended one |
| Feeder.AsWrittenDispensesEveryPoll | main.c:225-242 | from dial setting 13 the as-written loop dispenses at every poll second, where the intended one would still be waiting |
| Feeder.Boot | main.c:196-214 | the boot sequence itself, before any watchdog tick is counted, leaves the counter at 0, motor and power gate off and the CPU awake, with six motor stops |
| Feeder.BootEffect | main.c:210-214 | power on, wiggle, power off and one second of waiting leave motor and power off, after six motor stops |
| Feeder.BootSequence | main.c:210-214 | whatever the wiggle does, a sequence that ends with the motor off and is bracketed by power on/off leaves everything off, and adds no motor stops of its own |
| Feeder.FirstPassEvaluates | main.c:216-227 | with the intended threshold, if no watchdog tick fell during boot, the first loop pass reads the dial and does not dispense |
| Feeder.Ticks | main.c:176-181 | k watchdog ticks raise the counter by k, leave PORTA alone and wake the CPU |
| Feeder.FirstPassAfterBootTicks | main.c:156-227 | with k < 3600 ticks counted during boot, the first loop pass reads the dial exactly when k is a multiple of 10, otherwise it only powers down and sleeps; with the intended threshold it never dispenses |
| Feeder.Step | main.c:176-248 | under either threshold formula, a single event keeps the counter, adds one to it, or resets it; a watchdog tick adds one and touches no output; a button press resets it |
| Feeder.Run | main.c:173-248 | under either threshold formula, a run of events concatenates their traces. With only ticks the counter rises by their number and nothing is output. In any case the counter ends at most the start (or 0) plus the number of events |
| Feeder.RunCounterNonNegative | main.c:173-248 | under any interleaving of interrupts and loop passes, with either threshold formula, the counter never becomes negative |
| Feeder.FirstPollAsWrittenDispenses | main.c:216-242 | with the threshold as written and the dial at 13..15, the first poll pass after boot dispenses, whether it is the very first pass or comes after a multiple of 10 boot ticks |
| Feeder.StepLoopPass | main.c:216-248 | a main-loop event on an awake CPU is the intended loop pass under `Intended` and the as-written one under `AsWritten`; on a sleeping CPU it does nothing |
| Feeder.OverrideWins | main.c:184-242 | after a button press the next loop pass does not dispense again and keeps the counter at 0 |
| Feeder.OverrideThenDispenseAsWritten | main.c:184-242 | with the 16-bit threshold at dial 13, the loop pass right after a button press dispenses a second time |
| Feeder.WakeCycle | main.c:176-248 | a tick-driven wake-up ends asleep and powered down; it dispenses exactly when the ticked counter is a poll second at or past `sleep_max`, and then resets it, otherwise it keeps the tick |
| Feeder.Cycles | main.c:176-248 | n wake-ups without a dispense raise the counter by n; after a dispense the counter is below n |
| Feeder.PassAgainstThreshold | main.c:217-242 | a wake-up below the threshold only counts; the wake-up that reaches it dispenses and resets |
| Feeder.QuietBeforeThreshold | main.c:176-242 | from a reset counter, n wake-ups below the threshold dispense nothing and leave the counter at n |
| Feeder.CyclesStep | main.c:216-248 | n wake-ups end where the last one does, and they dispense when the first n-1 or the last one does |
| Feeder.FirstDispenseAtThreshold | main.c:176-242 | from a reset counter the first dispense is at exactly the threshold's tick, after which the counter is 0 |
| Feeder.ThresholdExamples | main.c:12-17 | dial 0 waits 3600 s and dial 15 waits 39600 s under the intended formula |
| Feeder.SleepMax | main.c:224-225 | `sleep_max` never exceeds 39600, under the intended formula and the as-written one alike |
| Feeder.WakeOutcome | main.c:176-248 | one wake-up ends asleep and powered down. After a button wake-up the trace opens with the INT0 handler's own events and the counter is 0. After a tick it is 0 or one more |
| Feeder.TimerWakeIsRun | main.c:176-248 | under either threshold formula, a watchdog wake-up is exactly the run of a tick followed by one loop pass |
| Feeder.ButtonWakeIsRun | main.c:184-248 | under either threshold formula, a button wake-up is exactly the run of an override edge followed by one loop pass |
| Feeder.Schedule | main.c:176-248 | a run of wake-ups ends asleep and powered down, with the counter at most the start (or 0) plus the number of wake-ups |
| Feeder.WakeCycleKeepsBound | main.c:173-242 | a tick-driven wake-up keeps the counter in 0..39599 for any `sleep_max` up to 39600 |
| Feeder.ScheduleKeepsCounterBounded | main.c:173-248 | under any sequence of watchdog and button wake-ups, with either threshold formula, the counter stays in 0..39599, so the 32-bit `long` never wraps |
| SoftUart.Frame | libs/serialdebug.c:22-39 | a frame is ten segments: start low for one bit period, data bit i as segment i+1, and the stop segment high for `stopBits` periods |
| SoftUart.BitMaskStep | libs/serialdebug.c:27-28 | the 8-bit mask tests data bit k for k < 8, and the eighth shift clears it, which ends the loop |
| SoftUart.SignExtend | libs/serialdebug.c:45 | the returned `int` lies in -128..127 and has the bit pattern of the character |
| SoftUart.PutChar | libs/serialdebug.c:15-47 | `usart_putchar` puts exactly one frame on the line: start bit low, the eight data bits LSB first, stop bit(s) high. It returns the sign-extended character |
| SoftUart.AssembleFrameData | libs/serialdebug.c:26-35 | the eight data segments of a frame carry the byte back |
| SoftUart.DecodeFrame | libs/serialdebug.c:15-47 | a segment sequence the receiver accepts as a byte is exactly that byte's frame |
| SoftUart.DecodeFrameOfFrame | libs/serialdebug.c:15-47 | the receiver reads back the byte from its frame |
| SoftUart.Transmit | libs/serialdebug.c:52-55 | sending n bytes puts 10·n segments on the line and leaves it idle high |
| SoftUart.TransmitAppend | libs/serialdebug.c:52-55 | sending two strings one after the other is sending their concatenation |
| SoftUart.DecodeLineOfTransmit | libs/serialdebug.c:52-55 | the receiver reads back exactly the bytes that were sent |
| SoftUart.TransmitOfDecodeLine | libs/serialdebug.c:52-55 | every line trace the receiver decodes is the transmission of what it decodes to |
| SoftUart.FrameOfA | libs/serialdebug.c:22-39 | 'A' (0x41) goes out as low, 1,0,0,0,0,0,1,0, high |
| DebugOut.UntilNul | libs/serialdebug.c:52 | the characters sent are the longest prefix before the first NUL, and none of them is NUL |
| DebugOut.UntilNulOfTerminated | libs/serialdebug.c:52 | a text without NUL, followed by NUL and anything, reads as that text |
| DebugOut.PutString | libs/serialdebug.c:49-56 | `dbg_putstring` sends one frame per character up to, and not including, the NUL |
| DebugOut.PutStringNl | libs/serialdebug.c:58-61 | `dbg_putstring_nl` is received as the string (nothing for a null pointer) followed by a newline |
| DebugOut.Digits | libs/serialdebug.c:66 | decimal text is non-empty, all digits, and begins with '0' only for zero |
| DebugOut.ParseDigitsOfDigits | libs/serialdebug.c:66 | reading the decimal text back gives the number |
| DebugOut.DigitsLength | libs/serialdebug.c:65-66 | a number below 10^k has at most k digits |
| DebugOut.Itoa | libs/serialdebug.c:65-66 | `itoa` of a 16-bit value writes at most 6 characters and no NUL, so it fits `char c[7]` with its terminator. Negative values get '-' and the magnitude's digits |
| DebugOut.ItoaRoundTrip | libs/serialdebug.c:66 | reading the `itoa` text back gives the value |
| DebugOut.AsSigned16 | libs/serialdebug.c:63-66 | the `unsigned int` argument becomes a 16-bit signed value congruent to it mod 65536 |
| DebugOut.PutInt | libs/serialdebug.c:63-68 | `dbg_putint(num)` is received as the `itoa` text of num read as a signed 16-bit value |
| DebugOut.PutIntText | libs/serialdebug.c:63-68 | up to 32767 the text is num's digits without leading zeros; above that it is '-' followed by the digits of 65536 - num |

## Left out

- `setup` and `gotosleep` (main.c:130-170) also write MCUCR, GIMSK, ADCSRA and WDTCSR, and `gotosleep` puts the CPU to sleep. Sleeping is the `Sleep` event and the watchdog period is one tick; the other register values are not modelled. The DDRA writes are modelled by `Hardware.ConfigureDdra`.
- `Hw.Powered()` is the PORTA bit 5 latch, read as "the gate is driven on". The firmware never makes PA5 an output: DDRA is cleared at main.c:198, and `setup()` sets only the motor pin's direction (main.c:133). So `pwr_on` only switches the pin's internal pull-up (see "## Findings"). The events model the register writes as written, and `Powered()` gives them the meaning of `Hardware.ConfigureDdraIntended`.
- `serial_configure` (libs/serialdebug.c:7-13) sets the TX pin as an output, binds `stdout`, and drives the TX line high, its idle level. The line model starts at the first start bit with the line idle, so that initial write is not a separate event.
- Real time is left out. `_delay_ms` and `_delay_us` are events or segment lengths, not durations, and the watchdog period is one tick.
- Interrupts are atomic events between main-loop passes. A handler that preempts a loop pass halfway is not modelled. In particular, the non-atomic read-modify-write of the 32-bit counter on an 8-bit CPU is not modelled.
- `cli()`/`sei()` around `usart_putchar` apply only when `SERIALDEBUG_USE_INTS` is set. Since interrupts are atomic here, they have no effect in the model.
- The INT0 edge-sense setting (main.c:147-150) is not modelled: a button press is simply an `OverrideEdge` event.
- libs/serialdebug.h and serialsettings.h are not part of this model. The bit period and the stop-bit count are the `Config` parameter, and the TX pin is the abstract line.
- The debug prints inside `main`, the INT0 handler and `delay_s` are left out of the event traces, because they only add serial output. That includes "Mins to sleep", "AYE MATEY" and "Wait...". Their building blocks are modelled in `DebugOut`.
- Feeder.Override: requires that the switch is eventually read as released. A switch stuck down keeps the handler in its busy loop forever, which this function does not model.
- Feeder.ThresholdAsWritten: treats a 16-bit signed overflow as two's-complement wrap-around, which is what avr-gcc normally emits for 16-bit `int` arithmetic. In C the overflow is undefined behaviour.
- The debug TX line is PA6 (pin 7, main.c:28), which `serial_configure` sets high. The model's events change only the motor (PA7) and power-gate (PA5) bits of `Hw.porta`. Writes to the TX bit are not tracked there, and `Feeder.Reset` takes PORTA as 0, although the firmware's PA6 is high by the time of the boot wiggle (main.c:210). The boot lemmas `Feeder.BootEffect` and `Feeder.BootSequence` need only that the motor is off.
- Feeder.Boot, Feeder.FirstPassEvaluates: do not include the watchdog ticks counted during boot. `setup()` enables the one-second watchdog interrupt (main.c:156-161) before the wiggle and `delay_s(1)`, which busy-wait about 2 s. So the firmware normally reaches its loop with a counter of about 2, and its first pass does not read the dial. `Feeder.FirstPassAfterBootTicks` states that case for the intended threshold; `Feeder.Run` covers arbitrary interleavings from any state.
- `dbg_putstring` indexes with a 16-bit `int i`. Strings longer than 32767 characters, which do not fit the device's memory, are not considered.
- The dial value is read while the power gate is on, after a 1 ms settle. Electrical behaviour of the pins is not modelled: PINA is an input byte.

## Findings

| source | as written | input that shows it | evidently intended | confidence | as-written member | corrected member |
|---|---|---|---|---|---|---|
| main.c:225 | `HOUR + (BLOCK_MINS * 60 * speed)` is computed in 16-bit `int` before it is widened to `long`. For speed 13 the sum 34800 wraps to -30736; for 14 and 15 the product already wraps, giving -28336 and -25936 | dial PA0..PA3 = 1,1,0,1 (PINA 0x0B, speed 13), any counter at a multiple of 10; in particular the first poll pass after boot, about 10 s after power-up, dispenses | the waiting time 3600 + 2400·speed seconds, up to 39600 for speed 15, computed in `long` | not executed | Feeder.ThresholdAsWrittenOverflows, Feeder.AsWrittenDispensesEveryPoll, Feeder.OverrideThenDispenseAsWritten, Feeder.FirstPollAsWrittenDispenses | Feeder.Threshold, Feeder.LoopIteration, Feeder.FirstDispenseAtThreshold |
| main.c:130-140 | `setup()` sets the direction of the motor pin and the dial pins but never of the power-gate pin; `PWRON_DDR` (main.c:37) is defined and unused, and `main` clears DDRA at main.c:198 | any boot, debug build or not: DDRA bit 5 is 0 when `pwr_on()` first runs at main.c:210, so setting PORTA bit 5 enables a pull-up instead of driving the pin | `SET_BIT(PWRON_DDR, PWRON_BIT)` in `setup()`, making PA5 an output that drives the power gate | medium: a weak pull-up may still switch a high-impedance gate; not executed | Hardware.ConfigureDdra | Hardware.ConfigureDdraIntended |

=== FILE: bits.dfy ===
/**
 Bit manipulation on 8-bit I/O registers, as the firmware's three macros
 `SET_BIT`, `CLEAR_BIT` and `IS_SET` do it (libs/macros.h).

 A register is a `bv8`; a bit is named by its index 0..7 (the firmware only
 ever passes pin numbers such as PA7 or PB2). `BitOf` reads a bit with plain
 integer arithmetic and is the reference the bit-vector definitions are
 checked against.
 */
module Bits {

  type BitIndex = k: nat | k < 8

  function Pow2(k: nat): (p: nat)
    ensures p > 0
  {
    if k == 0 then 1 else 2 * Pow2(k - 1)
  }

  /** Bit k of b, read as the k-th binary digit of the number b. */
  function BitOf(b: bv8, k: BitIndex): (d: nat)
    ensures d <= 1
  {
    (b as nat / Pow2(k)) % 2
  }

  /** `_BV(k)`: the byte in which only bit k is set. */
  function Mask(k: BitIndex): bv8
  {
    (1 as bv8) << k
  }

  /** `IS_SET(b, k)`: bit k of b moved down to bit 0. */
  function IsSet(b: bv8, k: BitIndex): (r: bv8)
    ensures r == 0 || r == 1
    ensures r == 1 <==> b & Mask(k) != 0
  {
    (b & Mask(k)) >> k
  }

  /** `SET_BIT(b, k)`: bit k becomes 1, every other bit keeps its value. */
  function SetBit(b: bv8, k: BitIndex): (r: bv8)
    ensures IsSet(r, k) == 1
    ensures forall j: BitIndex :: j != k ==> IsSet(r, j) == IsSet(b, j)
    ensures IsSet(b, k) == 1 ==> r == b
  {
    b | Mask(k)
  }

  /** `CLEAR_BIT(b, k)`: bit k becomes 0, every other bit keeps its value. */
  function ClearBit(b: bv8, k: BitIndex): (r: bv8)
    ensures IsSet(r, k) == 0
    ensures forall j: BitIndex :: j != k ==> IsSet(r, j) == IsSet(b, j)
    ensures IsSet(b, k) == 0 ==> r == b
  {
    b & !Mask(k)
  }

  /** Two bytes that agree on every bit are equal. */
  lemma BitsDetermineByte(a: bv8, b: bv8)
    requires forall j: BitIndex :: IsSet(a, j) == IsSet(b, j)
    ensures a == b
  {
    assert IsSet(a, 0) == IsSet(b, 0) && IsSet(a, 1) == IsSet(b, 1);
    assert IsSet(a, 2) == IsSet(b, 2) && IsSet(a, 3) == IsSet(b, 3);
    assert IsSet(a, 4) == IsSet(b, 4) && IsSet(a, 5) == IsSet(b, 5);
    assert IsSet(a, 6) == IsSet(b, 6) && IsSet(a, 7) == IsSet(b, 7);
  }

  /** The bit-vector reading of `IS_SET` agrees with the arithmetic one. */
  lemma IsSetIsBitOf(b: bv8, k: BitIndex)
    ensures IsSet(b, k) as nat == BitOf(b, k)
  {
    match k
    case 0 => Bit0(b);
    case 1 => Bit1(b);
    case 2 => Bit2(b);
    case 3 => Bit3(b);
    case 4 => Bit4(b);
    case 5 => Bit5(b);
    case 6 => Bit6(b);
    case 7 => Bit7(b);
  }

  // One instance of IsSetIsBitOf per bit position, with the mask as a literal.
  lemma Bit0(b: bv8) ensures ((b & 1) >> 0) as nat == (b as nat / 1) % 2 {}
  lemma Bit1(b: bv8) ensures ((b & 2) >> 1) as nat == (b as nat / 2) % 2 {}
  lemma Bit2(b: bv8) ensures ((b & 4) >> 2) as nat == (b as nat / 4) % 2 {}
  lemma Bit3(b: bv8) ensures ((b & 8) >> 3) as nat == (b as nat / 8) % 2 {}
  lemma Bit4(b: bv8) ensures ((b & 16) >> 4) as nat == (b as nat / 16) % 2 {}
  lemma Bit5(b: bv8) ensures ((b & 32) >> 5) as nat == (b as nat / 32) % 2 {}
  lemma Bit6(b: bv8) ensures ((b & 64) >> 6) as nat == (b as nat / 64) % 2 {}
  lemma Bit7(b: bv8) ensures ((b & 128) >> 7) as nat == (b as nat / 128) % 2 {}
}

=== FILE: debug_out.dfy ===
/**
 The string-level diagnostics of libs/serialdebug.c: `dbg_putstring`,
 `dbg_putstring_nl` and `dbg_putint`, each a sequence of `usart_putchar`
 frames on the serial line.

 A C string is the memory it points at, a `seq<bv8>` that holds a NUL
 somewhere; what is sent is everything before the first NUL.
 */
module DebugOut {
  import opened Wrappers
  import opened SoftUart

  const NUL: bv8 := 0
  const NEWLINE: bv8 := 10
  const MINUS: bv8 := 45
  const ZERO: bv8 := 48

  /** The size of `dbg_putint`'s buffer `char c[7]`. */
  const INT_BUFFER := 7

  /** The characters of a C string: those before its first NUL. */
  function UntilNul(s: seq<bv8>): (r: seq<bv8>)
    requires NUL in s
    ensures |r| < |s| && r == s[..|r|] && s[|r|] == NUL
    ensures NUL !in r
    decreases |s|
  {
    if s[0] == NUL then [] else [s[0]] + UntilNul(s[1..])
  }

  /** Text followed by its terminator and anything after reads back as the
      text. */
  lemma {:induction false} UntilNulOfTerminated(t: seq<bv8>, rest: seq<bv8>)
    requires NUL !in t
    ensures UntilNul(t + [NUL] + rest) == t
    decreases |t|
  {
    var s := t + [NUL] + rest;
    if |t| > 0 {
      assert s[0] == t[0] != NUL;
      assert s[1..] == t[1..] + [NUL] + rest;
      UntilNulOfTerminated(t[1..], rest);
    }
  }

  /** `dbg_putstring(string)`: one frame per character, up to the NUL. */
  method PutString(cfg: Config, s: seq<bv8>) returns (line: seq<Segment>)
    requires NUL in s
    ensures line == Transmit(cfg, UntilNul(s))
  {
    ghost var text := UntilNul(s);
    var i := 0;
    line := [];
    while s[i] != NUL
      invariant 0 <= i <= |text|
      invariant s[..i] == text[..i]
      invariant line == Transmit(cfg, s[..i])
      decreases |text| - i
    {
      var frame, _ := PutChar(cfg, s[i]);
      assert s[..i + 1] == s[..i] + [s[i]];
      TransmitAppend(cfg, s[..i], [s[i]]);
      assert Transmit(cfg, [s[i]]) == Frame(cfg, s[i]) + Transmit(cfg, []);
      line := line + frame;
      i := i + 1;
    }
    assert s[..i] == text;
  }

  /** `dbg_putstring_nl(string)`: the string, when the pointer is not null,
      then a newline. */
  method PutStringNl(cfg: Config, s: Option<seq<bv8>>) returns (line: seq<Segment>)
    requires s.Some? ==> NUL in s.value
    ensures DecodeLine(cfg, line) == Some((if s.Some? then UntilNul(s.value) else []) + [NEWLINE])
  {
    var text: seq<bv8> := [];
    line := [];
    if s.Some? {
      line := PutString(cfg, s.value);
      text := UntilNul(s.value);
    }
    var nl := PutString(cfg, [NEWLINE, NUL]);
    assert UntilNul([NEWLINE, NUL]) == [NEWLINE] by {
      UntilNulOfTerminated([NEWLINE], []);
    }
    TransmitAppend(cfg, text, [NEWLINE]);
    line := line + nl;
    DecodeLineOfTransmit(cfg, text + [NEWLINE]);
  }

  // ---------------------------------------------------------------------
  // Decimal text, as avr-libc's `itoa(value, buffer, 10)` writes it

  predicate IsDigit(d: bv8)
  {
    ZERO <= d <= ZERO + 9
  }

  function Pow10(k: nat): (p: nat)
    ensures p >= 1
  {
    if k == 0 then 1 else 10 * Pow10(k - 1)
  }

  /** The decimal digits of n, most significant first. */
  function Digits(n: nat): (r: seq<bv8>)
    ensures |r| >= 1
    ensures forall i :: 0 <= i < |r| ==> IsDigit(r[i])
    ensures r[0] == ZERO <==> n == 0
    decreases n
  {
    if n < 10 then [ZERO + n as bv8] else Digits(n / 10) + [ZERO + (n % 10) as bv8]
  }

  /** The number a string of decimal digits denotes. */
  function ParseDigits(ds: seq<bv8>): nat
    requires forall i :: 0 <= i < |ds| ==> IsDigit(ds[i])
    decreases |ds|
  {
    if |ds| == 0 then 0
    else 10 * ParseDigits(ds[..|ds| - 1]) + (ds[|ds| - 1] - ZERO) as nat
  }

  lemma DigitValue(k: nat)
    requires k < 10
    ensures (ZERO + k as bv8 - ZERO) as nat == k
  {
  }

  /** Reading the digits back gives the number. */
  lemma {:induction false} ParseDigitsOfDigits(n: nat)
    ensures ParseDigits(Digits(n)) == n
    decreases n
  {
    var ds := Digits(n);
    if n < 10 {
      assert ds[..0] == [];
    } else {
      ParseDigitsOfDigits(n / 10);
      assert ds[..|ds| - 1] == Digits(n / 10);
      DigitValue(n % 10);
    }
  }

  /** A number below 10^k has at most k digits (zero has one). */
  lemma {:induction false} DigitsLength(n: nat, k: nat)
    requires 1 <= k && n < Pow10(k)
    ensures |Digits(n)| <= k
    decreases n
  {
    if n >= 10 {
      assert k >= 2;
      assert n / 10 < Pow10(k - 1);
      DigitsLength(n / 10, k - 1);
      assert |Digits(n)| == |Digits(n / 10)| + 1;
    }
  }

  /** `itoa(value, buffer, 10)` for a 16-bit `int`: a minus sign for negative
      values, then the digits of the magnitude. */
  function Itoa(v: int): (r: seq<bv8>)
    requires -32768 <= v < 32768
    ensures 1 <= |r| <= INT_BUFFER - 1
    ensures NUL !in r
    ensures v >= 0 ==> r == Digits(v)
    ensures v < 0 ==> r[0] == MINUS && r[1..] == Digits(-v)
  {
    DigitsLength(if v < 0 then -v else v, 5);
    if v < 0 then [MINUS] + Digits(-v) else Digits(v)
  }

  /** The number a decimal string with an optional leading minus denotes. */
  function ParseInt(text: seq<bv8>): int
  {
    if |text| > 0 && text[0] == MINUS && forall i :: 1 <= i < |text| ==> IsDigit(text[i])
    then -(ParseDigits(text[1..]) as int)
    else if forall i :: 0 <= i < |text| ==> IsDigit(text[i]) then ParseDigits(text)
    else 0
  }

  /** Reading the text of `itoa` back gives the value. */
  lemma ItoaRoundTrip(v: int)
    requires -32768 <= v < 32768
    ensures ParseInt(Itoa(v)) == v
  {
    if v < 0 {
      ParseDigitsOfDigits(-v);
    } else {
      ParseDigitsOfDigits(v);
    }
  }

  /** `itoa` takes an `int`: the `unsigned int` argument of `dbg_putint` is
      reinterpreted as 16-bit two's complement. */
  function AsSigned16(num: nat): (v: int)
    requires num < 65536
    ensures -32768 <= v < 32768
    ensures (num - v) % 65536 == 0
  {
    if num < 32768 then num else num - 65536
  }

  /** `dbg_putint(num)`: the text `itoa` leaves in the 7-byte buffer. */
  method PutInt(cfg: Config, num: nat) returns (line: seq<Segment>)
    requires num < 65536
    ensures DecodeLine(cfg, line) == Some(Itoa(AsSigned16(num)))
  {
    var text := Itoa(AsSigned16(num));
    var buffer := text + [NUL];
    assert |buffer| <= INT_BUFFER;
    UntilNulOfTerminated(text, []);
    assert buffer == text + [NUL] + [];
    line := PutString(cfg, buffer);
    DecodeLineOfTransmit(cfg, text);
  }

  /** Up to 32767 `dbg_putint` prints plain decimal digits without leading
      zeros; above that it prints a minus sign and 65536 - num. */
  lemma PutIntText(num: nat)
    requires num < 65536
    ensures num < 32768 ==>
      var t := Itoa(AsSigned16(num));
      (forall i :: 0 <= i < |t| ==> IsDigit(t[i]))
      && (t[0] == ZERO ==> |t| == 1)
      && ParseDigits(t) == num
    ensures num >= 32768 ==>
      var t := Itoa(AsSigned16(num));
      t[0] == MINUS && ParseDigits(t[1..]) == 65536 - num
  {
    if num < 32768 {
      ParseDigitsOfDigits(num);
    } else {
      ParseDigitsOfDigits(65536 - num);
    }
  }
}

=== FILE: feeder.dfy ===
/**
 The feeder's control logic from main.c: the watchdog tick, the manual
 override interrupt, one pass of the main loop, the boot sequence, and runs of
 these events.

 Interrupt handlers are atomic events interleaved between main-loop passes.
 The counter `seconds_since_last_spin` is a 32-bit `long`; it is an unbounded
 `int` here, and `ScheduleKeepsCounterBounded` shows it never leaves
 0..39599 under the firmware's wake-up schedule, so no wrap-around is lost.
 */
module Feeder {
  import opened Bits
  import opened Hardware

  // User settings (main.c:12-17) and the polling interval (main.c:217).
  const HOUR := 3600
  const BLOCK_MINS := 40
  const DISPENSE_MS := 12000
  const POLL_INTERVAL := 10
  const MAX_SPEED := 15

  /** What a handler or loop pass leaves behind, and what it did. */
  datatype Outcome = Outcome(after: Hw, trace: seq<Event>)

  /** A trace dispenses when it switches the motor on. */
  predicate Dispensed(trace: seq<Event>)
  {
    MotorOn in trace
  }

  lemma DispensedAppend(a: seq<Event>, b: seq<Event>)
    ensures Dispensed(a + b) <==> Dispensed(a) || Dispensed(b)
  {
  }

  // ---------------------------------------------------------------------
  // The dispense threshold

  /** avr-gcc's 16-bit `int`: the two's-complement value congruent to `x`. */
  function Int16(x: int): (r: int)
    ensures -32768 <= r < 32768
    ensures (x - r) % 65536 == 0
    ensures -32768 <= x < 32768 ==> r == x
  {
    (x + 32768) % 65536 - 32768
  }

  /** `HOUR + (BLOCK_MINS * 60 * speed)` as main.c:225 computes it: every
      operand is an `int`, so the product and then the sum wrap at 16 bits
      before the value is widened to `long`. */
  function ThresholdAsWritten(speed: nat): (t: int)
    ensures -32768 <= t < 32768
    ensures speed <= 12 ==> t == Threshold(speed)
    ensures 13 <= speed <= MAX_SPEED ==> t < 0
  {
    Int16(HOUR + Int16(BLOCK_MINS * 60 * speed))
  }

  /** The dial setting read from PINA, as a number. */
  function Speed(pina: bv8): (speed: nat)
    ensures speed <= MAX_SPEED
  {
    GetSpeed(pina) as nat
  }

  /** The intended threshold: an hour plus forty minutes per dial step. */
  function Threshold(speed: nat): (t: int)
    ensures t >= HOUR
    ensures t % POLL_INTERVAL == 0
    ensures speed <= MAX_SPEED ==> t <= HOUR + BLOCK_MINS * 60 * MAX_SPEED
  {
    HOUR + BLOCK_MINS * 60 * speed
  }

  /** A higher dial setting always means a longer wait. */
  lemma ThresholdStrictlyMonotone(s1: nat, s2: nat)
    requires s1 < s2
    ensures Threshold(s1) < Threshold(s2)
    ensures Threshold(s2) - Threshold(s1) == BLOCK_MINS * 60 * (s2 - s1)
  {
  }

  /** Up to dial setting 12 the 16-bit computation gives the intended value. */
  lemma ThresholdAsWrittenAgrees(speed: nat)
    requires speed <= 12
    ensures ThresholdAsWritten(speed) == Threshold(speed)
  {
    assert BLOCK_MINS * 60 * speed <= 28800;
  }

  /** From dial setting 13 the 16-bit sum overflows and the threshold is
      negative, for 14 and 15 the product already overflows. */
  lemma ThresholdAsWrittenOverflows(speed: nat)
    requires 13 <= speed <= MAX_SPEED
    ensures ThresholdAsWritten(speed) < 0
    ensures speed == 13 ==> ThresholdAsWritten(speed) == -30736
    ensures speed == 14 ==> ThresholdAsWritten(speed) == -28336
    ensures speed == 15 ==> ThresholdAsWritten(speed) == -25936
  {
    if speed == 13 {
      assert Int16(31200) == 31200;
      assert Int16(34800) == -30736;
    } else if speed == 14 {
      assert Int16(33600) == -31936;
      assert Int16(-28336) == -28336;
    } else {
      assert Int16(36000) == -29536;
      assert Int16(-25936) == -25936;
    }
  }

  // ---------------------------------------------------------------------
  // Interrupt handlers

  /** `ISR(WDT_vect)`: the watchdog wakes the CPU and counts one second. */
  function Tick(hw: Hw): (h: Hw)
    ensures h.counter == hw.counter + 1
    ensures h.porta == hw.porta
    ensures !h.asleep
  {
    hw.(counter := hw.counter + 1, asleep := false)
  }

  /** The override switch is eventually read as released. */
  predicate Released(pinb: seq<bv8>)
  {
    exists i :: 0 <= i < |pinb| && IsSet(pinb[i], FORCE_BIT) == 0
  }

  lemma ReleasedLater(pinb: seq<bv8>)
    requires Released(pinb) && IsSet(pinb[0], FORCE_BIT) == 1
    ensures Released(pinb[1..])
  {
    var i :| 0 <= i < |pinb| && IsSet(pinb[i], FORCE_BIT) == 0;
    assert pinb[1..][i - 1] == pinb[i];
  }

  /** How many successive PINB readings see the switch held before the first
      one that sees it released. */
  function HeldPolls(pinb: seq<bv8>): (n: nat)
    requires Released(pinb)
    ensures n < |pinb| && IsSet(pinb[n], FORCE_BIT) == 0
    ensures forall i :: 0 <= i < n ==> IsSet(pinb[i], FORCE_BIT) == 1
    decreases |pinb|
  {
    if IsSet(pinb[0], FORCE_BIT) == 0 then 0
    else
      ReleasedLater(pinb);
      1 + HeldPolls(pinb[1..])
  }

  /** Switching on a motor that already runs changes nothing. */
  lemma {:induction false} MotorOnAgain(h: Hw, n: nat)
    requires h.MotorRunning()
    ensures ApplyAll(h, Repeat([MotorOn], n)) == h
  {
    if n > 0 {
      MotorOnAgain(h, n - 1);
      ApplyAllAppend(h, Repeat([MotorOn], n - 1), [MotorOn]);
    }
  }

  /** Power on, motor on once per held reading, motor off. */
  function OverrideTrace(held: nat): (t: seq<Event>)
    ensures |t| == held + 2 && t[0] == PowerOn && t[|t| - 1] == MotorOff
    ensures forall i :: 1 <= i <= held ==> t[i] == MotorOn
  {
    [PowerOn] + Repeat([MotorOn], held) + [MotorOff]
  }

  /** During an override the power gate is on, the motor runs after every
      reading that sees the switch held, and it is off at the end. */
  lemma OverrideHoldsMotor(hw: Hw, held: nat)
    ensures forall k :: 2 <= k <= held + 1 ==>
      ApplyAll(hw, OverrideTrace(held)[..k]).MotorRunning()
      && ApplyAll(hw, OverrideTrace(held)[..k]).Powered()
    ensures !ApplyAll(hw, OverrideTrace(held)).MotorRunning()
    ensures ApplyAll(hw, OverrideTrace(held)).Powered()
    ensures ApplyAll(hw, OverrideTrace(held)).asleep == hw.asleep
  {
    var t := OverrideTrace(held);
    var p := Apply(hw, PowerOn);
    assert ApplyAll(hw, [PowerOn]) == p;
    if held > 0 {
      var running := Apply(p, MotorOn);
      assert ApplyAll(p, [MotorOn]) == running;
      forall k | 2 <= k <= held + 1
        ensures ApplyAll(hw, t[..k]).MotorRunning() && ApplyAll(hw, t[..k]).Powered()
      {
        assert t[..k] == [PowerOn] + ([MotorOn] + Repeat([MotorOn], k - 2));
        ApplyAllAppend(hw, [PowerOn], [MotorOn] + Repeat([MotorOn], k - 2));
        ApplyAllAppend(p, [MotorOn], Repeat([MotorOn], k - 2));
        MotorOnAgain(running, k - 2);
      }
      assert t[..held + 1] + [MotorOff] == t;
      ApplyAllAppend(hw, t[..held + 1], [MotorOff]);
      assert ApplyAll(ApplyAll(hw, t[..held + 1]), [MotorOff])
          == Apply(ApplyAll(hw, t[..held + 1]), MotorOff);
    } else {
      assert t == [PowerOn] + [MotorOff];
      ApplyAllAppend(hw, [PowerOn], [MotorOff]);
      assert ApplyAll(p, [MotorOff]) == Apply(p, MotorOff);
    }
  }

  /** `ISR(INT0_vect)`: `pinb` is the sequence of PINB readings the handler's
      busy loop takes. The handler returns with the counter at 0 however long
      the switch was held, the power gate still on and the motor off. */
  function Override(hw: Hw, pinb: seq<bv8>): (r: Outcome)
    requires Released(pinb)
    ensures r.trace == OverrideTrace(HeldPolls(pinb))
    ensures r.after.counter == 0
    ensures r.after.Powered() && !r.after.MotorRunning() && !r.after.asleep
    ensures r.after.porta == ApplyAll(hw, r.trace).porta
  {
    var trace := OverrideTrace(HeldPolls(pinb));
    OverrideHoldsMotor(hw, HeldPolls(pinb));
    Outcome(ApplyAll(hw, trace).(counter := 0, asleep := false), trace)
  }

  // ---------------------------------------------------------------------
  // The main loop

  /** The events of one loop pass: power off and sleep come last. */
  lemma LoopTraceEffect(hw: Hw, work: seq<Event>)
    requires work == [] || work == Dispense(DISPENSE_MS)
    ensures var h := ApplyAll(hw, [PowerOn, Delay(1)] + work + [PowerOff, Sleep]);
      h.asleep && !h.Powered()
      && (h.MotorRunning() ==> work == [] && hw.MotorRunning())
  {
    var pre := [PowerOn, Delay(1)];
    var p := Apply(hw, PowerOn);
    assert ApplyAll(hw, pre) == Apply(p, Delay(1));
    var mid := ApplyAll(hw, pre + work);
    ApplyAllAppend(hw, pre, work);
    if work != [] {
      DispenseRunsMotor(ApplyAll(hw, pre), DISPENSE_MS);
    }
    ApplyAllAppend(hw, pre + work, [PowerOff, Sleep]);
    assert ApplyAll(mid, [PowerOff, Sleep]) == Apply(Apply(mid, PowerOff), Sleep);
  }

  /** One pass of `main`'s `while (1)` body, with `sleep_max` given. */
  function LoopBody(hw: Hw, sleepMax: int): (r: Outcome)
    ensures r.after.asleep && !r.after.Powered()
    ensures |r.trace| >= 2 && r.trace[|r.trace| - 2] == PowerOff && r.trace[|r.trace| - 1] == Sleep
    ensures hw.counter % POLL_INTERVAL != 0 ==> r.trace == [PowerOff, Sleep] && r.after.counter == hw.counter
    ensures hw.counter % POLL_INTERVAL == 0 ==> r.trace[0] == PowerOn
    ensures Dispensed(r.trace) <==> hw.counter % POLL_INTERVAL == 0 && hw.counter >= sleepMax
    ensures Dispensed(r.trace) ==> r.after.counter == 0
    ensures !Dispensed(r.trace) ==> r.after.counter == hw.counter
    ensures r.after.MotorRunning() ==> hw.MotorRunning() && !Dispensed(r.trace)
    ensures r.after.porta == ApplyAll(hw, r.trace).porta
  {
    // `%` on a `long` truncates in C; the test against 0 means the same
    // for Dafny's Euclidean `%`.
    if hw.counter % POLL_INTERVAL == 0 then
      var toGo := sleepMax - hw.counter;
      var work := if toGo <= 0 then Dispense(DISPENSE_MS) else [];
      var trace := [PowerOn, Delay(1)] + work + [PowerOff, Sleep];
      LoopTraceEffect(hw, work);
      assert work == [] ==> MotorOn !in trace;
      Outcome(ApplyAll(hw, trace).(counter := if toGo <= 0 then 0 else hw.counter), trace)
    else
      LoopTraceEffect(hw, []);
      assert ApplyAll(hw, [PowerOff, Sleep]) == Apply(Apply(hw, PowerOff), Sleep);
      Outcome(ApplyAll(hw, [PowerOff, Sleep]), [PowerOff, Sleep])
  }

  /** A loop pass with the intended threshold for the dial read from PINA. */
  function LoopIteration(hw: Hw, pina: bv8): (r: Outcome)
    ensures Dispensed(r.trace) <==>
      hw.counter % POLL_INTERVAL == 0 && hw.counter >= Threshold(Speed(pina))
    ensures Dispensed(r.trace) ==> r.after.counter == 0
    ensures !Dispensed(r.trace) ==> r.after.counter == hw.counter
    ensures r.after.asleep && !r.after.Powered()
  {
    LoopBody(hw, Threshold(Speed(pina)))
  }

  /** A loop pass with the threshold main.c:225 actually computes. */
  function LoopIterationAsWritten(hw: Hw, pina: bv8): (r: Outcome)
    ensures Dispensed(r.trace) <==>
      hw.counter % POLL_INTERVAL == 0 && hw.counter >= ThresholdAsWritten(Speed(pina))
  {
    LoopBody(hw, ThresholdAsWritten(Speed(pina)))
  }

  /** A dispensing pass runs the motor for 800 steps of 15 ms (12 s) between
      powering up and sleeping. */
  lemma DispensingPass(hw: Hw, pina: bv8)
    requires Dispensed(LoopIteration(hw, pina).trace)
    ensures LoopIteration(hw, pina).trace
         == [PowerOn, Delay(1)] + Dispense(DISPENSE_MS) + [PowerOff, Sleep]
    ensures |DispenseDelays(DISPENSE_MS)| == 800
  {
  }

  /** Below dial setting 13 the as-written loop behaves as intended. */
  lemma AsWrittenAgreesBelow13(hw: Hw, pina: bv8)
    requires Speed(pina) <= 12
    ensures LoopIterationAsWritten(hw, pina) == LoopIteration(hw, pina)
  {
    ThresholdAsWrittenAgrees(Speed(pina));
  }

  /** From dial setting 13 the as-written loop dispenses at every poll. */
  lemma AsWrittenDispensesEveryPoll(hw: Hw, pina: bv8)
    requires Speed(pina) >= 13
    requires hw.counter >= 0 && hw.counter % POLL_INTERVAL == 0
    ensures Dispensed(LoopIterationAsWritten(hw, pina).trace)
    ensures hw.counter < Threshold(13) ==> !Dispensed(LoopIteration(hw, pina).trace)
  {
    ThresholdAsWrittenOverflows(Speed(pina));
  }

  // ---------------------------------------------------------------------
  // Boot

  /** Power-on reset: the counter starts at 0 (main.c:173), PORTA is 0 and
      the CPU runs. */
  const Reset: Hw := Hw(0, 0, false)

  /** `main` up to its loop: power on, wiggle, power off, wait one second. */
  function Boot(): (r: Outcome)
    ensures r.after.counter == 0
    ensures !r.after.MotorRunning() && !r.after.Powered() && !r.after.asleep
    ensures MotorStops(Reset, r.trace) == BOOT_PULSES
  {
    var trace := [PowerOn] + Wakeup() + [PowerOff] + DelaySeconds(1);
    assert !Reset.MotorRunning() by { assert IsSet(0, FEED_BIT) == 0; }
    BootEffect(Reset);
    Outcome(ApplyAll(Reset, trace), trace)
  }

  /** The boot sequence from any state with the motor off. */
  lemma BootEffect(hw: Hw)
    requires !hw.MotorRunning()
    ensures var h := ApplyAll(hw, [PowerOn] + Wakeup() + [PowerOff] + DelaySeconds(1));
      !h.MotorRunning() && !h.Powered() && h.asleep == hw.asleep
    ensures MotorStops(hw, [PowerOn] + Wakeup() + [PowerOff] + DelaySeconds(1)) == BOOT_PULSES
  {
    WakeupSixPulses(Apply(hw, PowerOn));
    BootSequence(hw, Wakeup(), DelaySeconds(1));
  }

  /** Power on, a wiggle that ends with the motor off, power off, waits: the
      motor stops as often as in the wiggle and everything ends switched off. */
  lemma BootSequence(hw: Hw, wiggle: seq<Event>, idle: seq<Event>)
    requires !hw.MotorRunning()
    requires !ApplyAll(Apply(hw, PowerOn), wiggle).MotorRunning()
    requires ApplyAll(Apply(hw, PowerOn), wiggle).asleep == hw.asleep
    requires AllDelays(idle)
    ensures var h := ApplyAll(hw, [PowerOn] + wiggle + [PowerOff] + idle);
      !h.MotorRunning() && !h.Powered() && h.asleep == hw.asleep
    ensures MotorStops(hw, [PowerOn] + wiggle + [PowerOff] + idle)
         == MotorStops(Apply(hw, PowerOn), wiggle)
  {
    var p := Apply(hw, PowerOn);
    assert ApplyAll(hw, [PowerOn]) == p;
    assert MotorStops(hw, [PowerOn]) == 0;
    ApplyAllAppend(hw, [PowerOn], wiggle);
    MotorStopsAppend(hw, [PowerOn], wiggle);
    var w := ApplyAll(p, wiggle);
    var off := Apply(w, PowerOff);
    assert ApplyAll(w, [PowerOff]) == off;
    assert MotorStops(w, [PowerOff]) == 0;
    ApplyAllAppend(hw, [PowerOn] + wiggle, [PowerOff]);
    MotorStopsAppend(hw, [PowerOn] + wiggle, [PowerOff]);
    DelaysChangeNothing(off, idle);
    ZeroStopsWhenIdle(off, idle);
    ApplyAllAppend(hw, [PowerOn] + wiggle + [PowerOff], idle);
    MotorStopsAppend(hw, [PowerOn] + wiggle + [PowerOff], idle);
  }

  lemma {:induction false} ZeroStopsWhenIdle(hw: Hw, evs: seq<Event>)
    requires AllDelays(evs)
    ensures MotorStops(hw, evs) == 0
    decreases |evs|
  {
    if |evs| > 0 {
      ZeroStopsWhenIdle(hw, evs[1..]);
    }
  }

  /** The counter starts at 0, so a first loop pass that no watchdog tick
      preceded evaluates the dial and does not dispense. */
  lemma FirstPassEvaluates(pina: bv8)
    ensures LoopIteration(Boot().after, pina).trace[0] == PowerOn
    ensures !Dispensed(LoopIteration(Boot().after, pina).trace)
  {
  }

  /** `k` watchdog ticks in a row. */
  function Ticks(hw: Hw, k: nat): (h: Hw)
    ensures h.counter == hw.counter + k
    ensures h.porta == hw.porta
    ensures k > 0 ==> !h.asleep
  {
    if k == 0 then hw else Tick(Ticks(hw, k - 1))
  }

  /** The watchdog runs from `setup()` on, so the ticks that fall during the
      boot wiggle and `delay_s(1)` are counted before the loop starts. After
      `k` of them (fewer than an hour's worth) the first pass reads the dial
      exactly when `k` is a multiple of 10, and it never dispenses. */
  lemma FirstPassAfterBootTicks(pina: bv8, k: nat)
    requires k < HOUR
    ensures var first := LoopIteration(Ticks(Boot().after, k), pina);
      (first.trace[0] == PowerOn <==> k % POLL_INTERVAL == 0)
      && (k % POLL_INTERVAL != 0 ==> first.trace == [PowerOff, Sleep])
      && !Dispensed(first.trace)
  {
    var h := Ticks(Boot().after, k);
    assert h.counter == k;
    var first := LoopBody(h, Threshold(Speed(pina)));
    if k % POLL_INTERVAL != 0 {
      assert first.trace == [PowerOff, Sleep];
    }
  }

  // ---------------------------------------------------------------------
  // Runs of events

  /** Which threshold formula the loop uses: the intended one, or the one
      main.c:225 computes in 16-bit `int`. */
  datatype Formula = Intended | AsWritten

  /** `sleep_max` for the dial read from PINA. Under either formula it never
      exceeds the largest intended threshold. */
  function SleepMax(f: Formula, pina: bv8): (m: int)
    ensures m <= Threshold(MAX_SPEED)
    ensures f == Intended ==> m == Threshold(Speed(pina))
    ensures f == AsWritten ==> m == ThresholdAsWritten(Speed(pina))
  {
    match f
    case Intended => Threshold(Speed(pina))
    case AsWritten => ThresholdAsWritten(Speed(pina))
  }

  /** The things that can happen: a watchdog tick, an override press with the
      PINB readings its handler takes, or one pass of the main loop with the
      PINA reading of the dial. */
  datatype Input = TimerTick | OverrideEdge(pinb: seq<bv8>) | MainLoop(pina: bv8)

  predicate ValidInput(i: Input)
  {
    i.OverrideEdge? ==> Released(i.pinb)
  }

  /** One event, with the loop's threshold computed by formula `f`. The main
      loop cannot run while the CPU sleeps. */
  function Step(hw: Hw, f: Formula, i: Input): (r: Outcome)
    requires ValidInput(i)
    ensures r.after.counter == hw.counter || r.after.counter == hw.counter + 1 || r.after.counter == 0
    ensures i.TimerTick? ==> r.after.counter == hw.counter + 1 && r.after.porta == hw.porta
    ensures i.OverrideEdge? ==> r.after.counter == 0
  {
    match i
    case TimerTick => Outcome(Tick(hw), [])
    case OverrideEdge(pinb) => Override(hw, pinb)
    case MainLoop(pina) => if hw.asleep then Outcome(hw, []) else LoopBody(hw, SleepMax(f, pina))
  }

  /** A main-loop event on an awake CPU is the loop pass of the chosen formula;
      on a sleeping CPU it does nothing. */
  lemma StepLoopPass(hw: Hw, pina: bv8)
    ensures !hw.asleep ==> Step(hw, Intended, MainLoop(pina)) == LoopIteration(hw, pina)
    ensures !hw.asleep ==> Step(hw, AsWritten, MainLoop(pina)) == LoopIterationAsWritten(hw, pina)
    ensures hw.asleep ==> Step(hw, AsWritten, MainLoop(pina)) == Outcome(hw, [])
  {
  }

  /** With the threshold as written, dial settings 13..15 make the first poll
      pass after boot dispense: at once when no tick fell during boot, or
      after the boot ticks when their number is a multiple of 10. */
  lemma FirstPollAsWrittenDispenses(pina: bv8, k: nat)
    requires Speed(pina) >= 13
    requires k % POLL_INTERVAL == 0
    ensures Dispensed(LoopIterationAsWritten(Ticks(Boot().after, k), pina).trace)
    ensures Dispensed(Step(Ticks(Boot().after, k), AsWritten, MainLoop(pina)).trace)
  {
    var h := Ticks(Boot().after, k);
    assert h.counter == k && !h.asleep;
    AsWrittenDispensesEveryPoll(h, pina);
    StepLoopPass(h, pina);
  }

  /** A sequence of events, with the traces concatenated. Only ticks raise
      the counter: with nothing but ticks it counts them, and in any case it
      ends no higher than its start (or 0) plus the number of events. */
  function Run(hw: Hw, f: Formula, inputs: seq<Input>): (r: Outcome)
    requires forall k :: 0 <= k < |inputs| ==> ValidInput(inputs[k])
    ensures (forall k :: 0 <= k < |inputs| ==> inputs[k].TimerTick?) ==>
      r.after.counter == hw.counter + |inputs| && r.trace == []
    ensures r.after.counter <= hw.counter + |inputs| || r.after.counter <= |inputs|
    decreases |inputs|
  {
    if |inputs| == 0 then Outcome(hw, [])
    else
      var first := Step(hw, f, inputs[0]);
      var rest := Run(first.after, f, inputs[1..]);
      Outcome(rest.after, first.trace + rest.trace)
  }

  /** The counter is never negative, whatever the events and the formula. */
  lemma {:induction false} RunCounterNonNegative(hw: Hw, f: Formula, inputs: seq<Input>)
    requires forall k :: 0 <= k < |inputs| ==> ValidInput(inputs[k])
    requires hw.counter >= 0
    ensures Run(hw, f, inputs).after.counter >= 0
    decreases |inputs|
  {
    if |inputs| > 0 {
      RunCounterNonNegative(Step(hw, f, inputs[0]).after, f, inputs[1..]);
    }
  }

  /** Reaching the threshold and pressing the button in the same second: the
      override's reset wins and the next loop pass does not dispense again. */
  lemma OverrideWins(hw: Hw, pinb: seq<bv8>, pina: bv8)
    requires Released(pinb)
    ensures !Dispensed(LoopIteration(Override(hw, pinb).after, pina).trace)
    ensures LoopIteration(Override(hw, pinb).after, pina).after.counter == 0
  {
  }

  /** With the threshold as written, dial 13 makes the loop pass right after
      an override dispense a second time. */
  lemma OverrideThenDispenseAsWritten(hw: Hw, pinb: seq<bv8>)
    requires Released(pinb)
    ensures Speed(0x0B) == 13
    ensures Dispensed(LoopIterationAsWritten(Override(hw, pinb).after, 0x0B).trace)
  {
    assert Speed(0x0B) == 13;
    AsWrittenDispensesEveryPoll(Override(hw, pinb).after, 0x0B);
  }

  // ---------------------------------------------------------------------
  // The wake-up schedule

  /** Each watchdog tick wakes the CPU, which runs one loop pass and sleeps.
      `sleepMax` is the threshold the pass computes from the dial. */
  function WakeCycle(hw: Hw, sleepMax: int): (r: Outcome)
    ensures r.after.asleep && !r.after.Powered()
    ensures Dispensed(r.trace) <==>
      (hw.counter + 1) % POLL_INTERVAL == 0 && hw.counter + 1 >= sleepMax
    ensures Dispensed(r.trace) ==> r.after.counter == 0
    ensures !Dispensed(r.trace) ==> r.after.counter == hw.counter + 1
  {
    LoopBody(Tick(hw), sleepMax)
  }

  /** `n` wake-ups with the dial left at the same setting. Without a
      dispense the counter counts them; after one it counts only those since
      the last dispense. */
  function Cycles(hw: Hw, sleepMax: int, n: nat): (r: Outcome)
    ensures !Dispensed(r.trace) ==> r.after.counter == hw.counter + n
    ensures Dispensed(r.trace) ==> 0 <= r.after.counter < n
  {
    if n == 0 then Outcome(hw, [])
    else
      var before := Cycles(hw, sleepMax, n - 1);
      var last := WakeCycle(before.after, sleepMax);
      Outcome(last.after, before.trace + last.trace)
  }

  /** A wake-up below the threshold only counts; the one that reaches it
      dispenses. */
  lemma PassAgainstThreshold(hw: Hw, sleepMax: int)
    requires sleepMax % POLL_INTERVAL == 0
    requires 0 <= hw.counter < sleepMax
    ensures hw.counter + 1 < sleepMax ==>
      !Dispensed(WakeCycle(hw, sleepMax).trace) && WakeCycle(hw, sleepMax).after.counter == hw.counter + 1
    ensures hw.counter + 1 == sleepMax ==>
      Dispensed(WakeCycle(hw, sleepMax).trace) && WakeCycle(hw, sleepMax).after.counter == 0
  {
  }

  /** Starting from a reset counter, nothing is dispensed before the
      threshold's number of ticks, and the counter simply counts them. */
  lemma {:induction false} QuietBeforeThreshold(hw: Hw, sleepMax: int, n: nat)
    requires sleepMax % POLL_INTERVAL == 0
    requires hw.counter == 0
    requires n < sleepMax
    ensures Cycles(hw, sleepMax, n).after.counter == n
    ensures !Dispensed(Cycles(hw, sleepMax, n).trace)
  {
    if n > 0 {
      QuietBeforeThreshold(hw, sleepMax, n - 1);
      QuietStep(hw, sleepMax, n);
    }
  }

  /** One more quiet wake-up below the threshold keeps the run quiet. */
  lemma QuietStep(hw: Hw, sleepMax: int, n: nat)
    requires 0 < n < sleepMax
    requires Cycles(hw, sleepMax, n - 1).after.counter == n - 1
    requires !Dispensed(Cycles(hw, sleepMax, n - 1).trace)
    ensures Cycles(hw, sleepMax, n).after.counter == n
    ensures !Dispensed(Cycles(hw, sleepMax, n).trace)
  {
    CyclesStep(hw, sleepMax, n);
  }

  /** n wake-ups are n - 1 of them followed by one more: they end where the
      last one does and dispense when either part does. */
  lemma CyclesStep(hw: Hw, sleepMax: int, n: nat)
    requires n > 0
    ensures var before := Cycles(hw, sleepMax, n - 1);
      var last := WakeCycle(before.after, sleepMax);
      Cycles(hw, sleepMax, n).after == last.after
      && (Dispensed(Cycles(hw, sleepMax, n).trace) <==> Dispensed(before.trace) || Dispensed(last.trace))
  {
    var before := Cycles(hw, sleepMax, n - 1);
    DispensedAppend(before.trace, WakeCycle(before.after, sleepMax).trace);
  }

  /** The first dispense happens exactly at the threshold's tick, after which
      the counter is 0 again. */
  lemma FirstDispenseAtThreshold(hw: Hw, sleepMax: int)
    requires sleepMax > 0 && sleepMax % POLL_INTERVAL == 0
    requires hw.counter == 0
    ensures !Dispensed(Cycles(hw, sleepMax, sleepMax - 1).trace)
    ensures Dispensed(WakeCycle(Cycles(hw, sleepMax, sleepMax - 1).after, sleepMax).trace)
    ensures Cycles(hw, sleepMax, sleepMax).after.counter == 0
  {
    QuietBeforeThreshold(hw, sleepMax, sleepMax - 1);
    PassAgainstThreshold(Cycles(hw, sleepMax, sleepMax - 1).after, sleepMax);
  }

  /** The dial at 0 dispenses after 3600 ticks, at 15 after 39600. */
  lemma ThresholdExamples()
    ensures Speed(0x00) == 0 && Threshold(Speed(0x00)) == 3600
    ensures Speed(0x0F) == 15 && Threshold(Speed(0x0F)) == 39600
  {
  }

  /** What wakes the CPU: a watchdog tick, or the override button (whose
      handler runs before the loop pass). Either way one loop pass follows. */
  datatype Wake = TimerWake(pina: bv8) | ButtonWake(pinb: seq<bv8>, pina: bv8)

  predicate ValidWake(w: Wake)
  {
    w.ButtonWake? ==> Released(w.pinb)
  }

  /** One wake-up: the override handler, if it was the button, then a loop
      pass. The handler's own events come first in the trace; after a button
      wake-up the counter is 0 whatever the loop pass decides. */
  function WakeOutcome(hw: Hw, f: Formula, w: Wake): (r: Outcome)
    requires ValidWake(w)
    ensures r.after.asleep && !r.after.Powered()
    ensures w.TimerWake? ==> r.after.counter == 0 || r.after.counter == hw.counter + 1
    ensures w.ButtonWake? ==>
      var handler := OverrideTrace(HeldPolls(w.pinb));
      |r.trace| > |handler| && r.trace[..|handler|] == handler && r.after.counter == 0
  {
    match w
    case TimerWake(pina) => WakeCycle(hw, SleepMax(f, pina))
    case ButtonWake(pinb, pina) =>
      var handler := Override(hw, pinb);
      var pass := LoopBody(handler.after, SleepMax(f, pina));
      assert (handler.trace + pass.trace)[..|handler.trace|] == handler.trace;
      Outcome(pass.after, handler.trace + pass.trace)
  }

  /** Two events in a row: the second starts where the first ended. */
  lemma RunOfTwo(hw: Hw, f: Formula, a: Input, b: Input)
    requires ValidInput(a) && ValidInput(b)
    ensures var first := Step(hw, f, a);
      var second := Step(first.after, f, b);
      Run(hw, f, [a, b]) == Outcome(second.after, first.trace + second.trace)
  {
    var inputs := [a, b];
    var first := Step(hw, f, a);
    var second := Step(first.after, f, b);
    assert inputs[1..][0] == b && inputs[1..][1..] == [];
    assert Run(second.after, f, inputs[1..][1..]) == Outcome(second.after, []);
    assert Run(first.after, f, inputs[1..]) == Outcome(second.after, second.trace + []);
    assert second.trace + [] == second.trace;
  }

  /** Under either formula a tick wake-up is exactly the run of a tick and
      one loop pass. */
  lemma TimerWakeIsRun(hw: Hw, f: Formula, pina: bv8)
    ensures WakeOutcome(hw, f, TimerWake(pina)) == Run(hw, f, [TimerTick, MainLoop(pina)])
  {
    RunOfTwo(hw, f, TimerTick, MainLoop(pina));
    assert [] + WakeCycle(hw, SleepMax(f, pina)).trace == WakeCycle(hw, SleepMax(f, pina)).trace;
  }

  /** Under either formula a button wake-up is exactly the run of an override
      edge and one loop pass. */
  lemma ButtonWakeIsRun(hw: Hw, f: Formula, pinb: seq<bv8>, pina: bv8)
    requires Released(pinb)
    ensures WakeOutcome(hw, f, ButtonWake(pinb, pina)) == Run(hw, f, [OverrideEdge(pinb), MainLoop(pina)])
  {
    RunOfTwo(hw, f, OverrideEdge(pinb), MainLoop(pina));
  }

  predicate CounterBounded(c: int)
  {
    0 <= c < Threshold(MAX_SPEED)
  }

  /** A run of wake-ups under one threshold formula. Each one raises the
      counter by at most one or resets it, and the CPU ends asleep with the
      power gate off. */
  function Schedule(hw: Hw, f: Formula, wakes: seq<Wake>): (r: Outcome)
    requires forall k :: 0 <= k < |wakes| ==> ValidWake(wakes[k])
    ensures |wakes| > 0 ==> r.after.asleep && !r.after.Powered()
    ensures r.after.counter <= hw.counter + |wakes| || r.after.counter <= |wakes|
    decreases |wakes|
  {
    if |wakes| == 0 then Outcome(hw, [])
    else
      var first := WakeOutcome(hw, f, wakes[0]);
      var rest := Schedule(first.after, f, wakes[1..]);
      Outcome(rest.after, first.trace + rest.trace)
  }

  /** A tick-driven wake-up keeps the counter below the largest threshold
      whenever `sleep_max` does not exceed it: the counter reaches 39600 only
      at a poll, where it always dispenses. */
  lemma WakeCycleKeepsBound(hw: Hw, sleepMax: int)
    requires CounterBounded(hw.counter)
    requires sleepMax <= Threshold(MAX_SPEED)
    ensures CounterBounded(WakeCycle(hw, sleepMax).after.counter)
  {
  }

  /** Under the wake-up schedule the counter stays in 0..39599, with the
      intended threshold and with the one main.c:225 computes alike, so the
      32-bit `long` never wraps. */
  lemma {:induction false} ScheduleKeepsCounterBounded(hw: Hw, f: Formula, wakes: seq<Wake>)
    requires forall k :: 0 <= k < |wakes| ==> ValidWake(wakes[k])
    requires CounterBounded(hw.counter)
    ensures CounterBounded(Schedule(hw, f, wakes).after.counter)
    decreases |wakes|
  {
    if |wakes| > 0 {
      var next := WakeOutcome(hw, f, wakes[0]);
      if wakes[0].TimerWake? {
        WakeCycleKeepsBound(hw, SleepMax(f, wakes[0].pina));
      }
      ScheduleKeepsCounterBounded(next.after, f, wakes[1..]);
    }
  }
}

=== FILE: hardware.dfy ===
/**
 The feeder's peripherals as seen from main.c: the motor and power-gate
 outputs on PORTA, the four dial inputs on PINA, the override switch on PINB,
 and the busy-wait helpers built on them (`dispense`, `bootpulse`, `wakeup`,
 `delay_s`).

 The machine state `Hw` holds the elapsed-tick counter, the PORTA output
 register and whether the CPU is asleep. Every output operation is an `Event`;
 an operation of the firmware is modelled as the sequence of events it
 performs, and `ApplyAll` gives the register state that sequence leaves. A
 busy-wait `_delay_ms(n)` is one `Delay(n)` event: a step, not a duration.
 */
module Hardware {
  import opened Bits

  // Pin assignment (main.c:33-59): all outputs and the dial are on port A,
  // the override switch is on port B.
  const FEED_BIT: BitIndex := 7     // PA7 drives the motor
  const PWRON_BIT: BitIndex := 5    // PA5 gates power to motor driver and dial
  const FORCE_BIT: BitIndex := 2    // PB2 reads the override switch
  const NIBBLE0_BIT: BitIndex := 0  // PA0
  const NIBBLE1_BIT: BitIndex := 1  // PA1
  const NIBBLE2_BIT: BitIndex := 2  // PA2
  const NIBBLE3_BIT: BitIndex := 3  // PA3
  const TX_BIT: BitIndex := 6       // PA6 is the debug serial line (pin 7, main.c:28)

  // Busy-wait lengths in milliseconds (main.c:76, 92-93, 113).
  const DISPENSE_STEP_MS := 15
  const WAKEUP_PULSE := 100
  const WAKEUP_BETWEEN := 75
  const BOOT_PULSES := 6

  /** The machine: `seconds_since_last_spin`, PORTA, and the CPU sleep state. */
  datatype Hw = Hw(counter: int, porta: bv8, asleep: bool) {

    predicate MotorRunning() { IsSet(porta, FEED_BIT) == 1 }

    /** The power-gate latch. It drives the gate only when PA5 is an output,
        as `ConfigureDdraIntended` has it. */
    predicate Powered() { IsSet(porta, PWRON_BIT) == 1 }
  }

  /** One observable action on the outputs. */
  datatype Event = MotorOn | MotorOff | PowerOn | PowerOff | Delay(ms: nat) | Sleep

  /** The register update an event performs; the counter is never touched. */
  function Apply(hw: Hw, e: Event): (h: Hw)
    ensures h.counter == hw.counter
    ensures e.Delay? ==> h == hw
    ensures e != Sleep ==> h.asleep == hw.asleep
    ensures e == MotorOn ==> h.MotorRunning() && h.Powered() == hw.Powered()
    ensures e == MotorOff ==> !h.MotorRunning() && h.Powered() == hw.Powered()
    ensures e == PowerOn ==> h.Powered() && h.MotorRunning() == hw.MotorRunning()
    ensures e == PowerOff ==> !h.Powered() && h.MotorRunning() == hw.MotorRunning()
    ensures e == Sleep ==> h == hw.(asleep := true)
  {
    match e
    case MotorOn => hw.(porta := SetBit(hw.porta, FEED_BIT))     // motor_on
    case MotorOff => hw.(porta := ClearBit(hw.porta, FEED_BIT))  // motor_off
    case PowerOn => hw.(porta := SetBit(hw.porta, PWRON_BIT))    // pwr_on
    case PowerOff => hw.(porta := ClearBit(hw.porta, PWRON_BIT)) // pwr_off
    case Delay(_) => hw
    case Sleep => hw.(asleep := true)
  }

  /** The state after performing the events in order. */
  function ApplyAll(hw: Hw, evs: seq<Event>): (h: Hw)
    ensures h.counter == hw.counter
    ensures Sleep !in evs ==> h.asleep == hw.asleep
    decreases |evs|
  {
    if |evs| == 0 then hw else ApplyAll(Apply(hw, evs[0]), evs[1..])
  }

  lemma {:induction false} ApplyAllAppend(hw: Hw, a: seq<Event>, b: seq<Event>)
    ensures ApplyAll(hw, a + b) == ApplyAll(ApplyAll(hw, a), b)
    decreases |a|
  {
    if |a| == 0 {
      assert a + b == b;
    } else {
      assert (a + b)[0] == a[0] && (a + b)[1..] == a[1..] + b;
      ApplyAllAppend(Apply(hw, a[0]), a[1..], b);
    }
  }

  /** `n` copies of `block`, one after the other. */
  function Repeat(block: seq<Event>, n: nat): (r: seq<Event>)
    ensures |r| == n * |block|
    ensures forall i :: 0 <= i < |r| ==> r[i] in block
  {
    if n == 0 then [] else Repeat(block, n - 1) + block
  }

  predicate AllDelays(evs: seq<Event>)
  {
    forall i :: 0 <= i < |evs| ==> evs[i].Delay?
  }

  /** Busy-waiting changes no register. */
  lemma {:induction false} DelaysChangeNothing(hw: Hw, evs: seq<Event>)
    requires AllDelays(evs)
    ensures ApplyAll(hw, evs) == hw
    decreases |evs|
  {
    if |evs| > 0 {
      DelaysChangeNothing(hw, evs[1..]);
    }
  }

  /** How many 15 ms waits `dispense(ms)` performs: the least number of steps
      that covers `ms`, and none when `ms` is not positive. */
  function DispenseSteps(ms: int): (n: nat)
    ensures ms <= 0 ==> n == 0
    ensures ms > 0 ==> DISPENSE_STEP_MS * (n - 1) < ms <= DISPENSE_STEP_MS * n
  {
    if ms <= 0 then 0 else (ms + DISPENSE_STEP_MS - 1) / DISPENSE_STEP_MS
  }

  /** The waits of a dispense. */
  function DispenseDelays(ms: int): (r: seq<Event>)
    ensures |r| == DispenseSteps(ms)
    ensures AllDelays(r)
  {
    seq(DispenseSteps(ms), _ => Delay(DISPENSE_STEP_MS))
  }

  /** `dispense(ms)`: motor on, wait, motor off. */
  function Dispense(ms: int): (r: seq<Event>)
    ensures |r| >= 2 && r[0] == MotorOn && r[|r| - 1] == MotorOff
    ensures r[1..|r| - 1] == DispenseDelays(ms)
  {
    [MotorOn] + DispenseDelays(ms) + [MotorOff]
  }

  /** `dispense(ms)` as main.c writes it, with its
      `while (ms > 0) { _delay_ms(15); ms -= 15; }` loop. */
  method RunDispense(ms: int) returns (trace: seq<Event>)
    ensures trace == Dispense(ms)
  {
    trace := [MotorOn];
    var left := ms;
    ghost var waits := 0;
    while left > 0
      invariant left == ms - DISPENSE_STEP_MS * waits
      invariant waits > 0 ==> left > -DISPENSE_STEP_MS
      invariant trace == [MotorOn] + seq(waits, _ => Delay(DISPENSE_STEP_MS))
      decreases left
    {
      trace := trace + [Delay(DISPENSE_STEP_MS)];
      left := left - DISPENSE_STEP_MS;
      waits := waits + 1;
    }
    assert waits == DispenseSteps(ms);
    trace := trace + [MotorOff];
  }

  /** The motor runs during every step of a dispense and is off after it;
      the power gate is left as it was. */
  lemma DispenseRunsMotor(hw: Hw, ms: int)
    ensures forall i :: 1 <= i < |Dispense(ms)| ==> ApplyAll(hw, Dispense(ms)[..i]).MotorRunning()
    ensures !ApplyAll(hw, Dispense(ms)).MotorRunning()
    ensures ApplyAll(hw, Dispense(ms)).Powered() == hw.Powered()
    ensures ApplyAll(hw, Dispense(ms)).asleep == hw.asleep
  {
    var r := Dispense(ms);
    var ds := DispenseDelays(ms);
    var on := Apply(hw, MotorOn);
    assert ApplyAll(hw, [MotorOn]) == on;
    forall i | 1 <= i < |r|
      ensures ApplyAll(hw, r[..i]).MotorRunning()
    {
      assert r[..i] == [MotorOn] + ds[..i - 1];
      ApplyAllAppend(hw, [MotorOn], ds[..i - 1]);
      DelaysChangeNothing(on, ds[..i - 1]);
    }
    assert r == [MotorOn] + ds + [MotorOff];
    ApplyAllAppend(hw, [MotorOn], ds);
    ApplyAllAppend(hw, [MotorOn] + ds, [MotorOff]);
    DelaysChangeNothing(on, ds);
  }

  /** `bootpulse()`: a short run of the motor followed by a pause. */
  function BootPulse(): (r: seq<Event>)
    ensures |r| == 4 && r[0] == MotorOn && r[2] == MotorOff && r[1].Delay? && r[3].Delay?
  {
    [MotorOn, Delay(WAKEUP_PULSE), MotorOff, Delay(WAKEUP_BETWEEN)]
  }

  /** `wakeup()`: motor on, six boot pulses, motor off. */
  function Wakeup(): (r: seq<Event>)
    ensures |r| == 2 + 4 * BOOT_PULSES
    ensures r[0] == MotorOn && r[|r| - 1] == MotorOff
  {
    [MotorOn] + Repeat(BootPulse(), BOOT_PULSES) + [MotorOff]
  }

  /** The number of events in `evs` that stop a running motor, i.e. the number
      of completed motor pulses. */
  function MotorStops(hw: Hw, evs: seq<Event>): nat
    decreases |evs|
  {
    if |evs| == 0 then 0
    else
      var h := Apply(hw, evs[0]);
      (if hw.MotorRunning() && !h.MotorRunning() then 1 else 0) + MotorStops(h, evs[1..])
  }

  lemma {:induction false} MotorStopsAppend(hw: Hw, a: seq<Event>, b: seq<Event>)
    ensures MotorStops(hw, a + b) == MotorStops(hw, a) + MotorStops(ApplyAll(hw, a), b)
    decreases |a|
  {
    if |a| == 0 {
      assert a + b == b;
    } else {
      assert (a + b)[0] == a[0] && (a + b)[1..] == a[1..] + b;
      MotorStopsAppend(Apply(hw, a[0]), a[1..], b);
    }
  }

  /** Each boot pulse stops the motor exactly once and leaves it off, whatever
      its state before. */
  lemma BootPulseStopsOnce(hw: Hw)
    ensures MotorStops(hw, BootPulse()) == 1
    ensures !ApplyAll(hw, BootPulse()).MotorRunning()
    ensures ApplyAll(hw, BootPulse()).Powered() == hw.Powered()
    ensures ApplyAll(hw, BootPulse()).asleep == hw.asleep
  {
    var p := BootPulse();
    var h1 := Apply(hw, MotorOn);
    var h2 := Apply(h1, Delay(WAKEUP_PULSE));
    var h3 := Apply(h2, MotorOff);
    var h4 := Apply(h3, Delay(WAKEUP_BETWEEN));
    assert p[3..] == [Delay(WAKEUP_BETWEEN)] && p[3..][1..] == [];
    assert ApplyAll(h3, p[3..]) == h4 && MotorStops(h3, p[3..]) == 0;
    assert p[2..][1..] == p[3..];
    assert ApplyAll(h2, p[2..]) == h4 && MotorStops(h2, p[2..]) == 1;
    assert p[1..][1..] == p[2..];
    assert ApplyAll(h1, p[1..]) == h4 && MotorStops(h1, p[1..]) == 1;
    assert ApplyAll(hw, p) == h4 && MotorStops(hw, p) == 1;
  }

  lemma {:induction false} RepeatedPulses(hw: Hw, n: nat)
    ensures MotorStops(hw, Repeat(BootPulse(), n)) == n
    ensures n > 0 ==> !ApplyAll(hw, Repeat(BootPulse(), n)).MotorRunning()
    ensures ApplyAll(hw, Repeat(BootPulse(), n)).Powered() == hw.Powered()
    ensures ApplyAll(hw, Repeat(BootPulse(), n)).asleep == hw.asleep
  {
    if n > 0 {
      var before := Repeat(BootPulse(), n - 1);
      RepeatedPulses(hw, n - 1);
      MotorStopsAppend(hw, before, BootPulse());
      ApplyAllAppend(hw, before, BootPulse());
      BootPulseStopsOnce(ApplyAll(hw, before));
    }
  }

  /** The boot wiggle makes exactly six motor pulses and leaves the motor off
      and the power gate as it was. */
  lemma WakeupSixPulses(hw: Hw)
    ensures MotorStops(hw, Wakeup()) == BOOT_PULSES
    ensures !ApplyAll(hw, Wakeup()).MotorRunning()
    ensures ApplyAll(hw, Wakeup()).Powered() == hw.Powered()
    ensures ApplyAll(hw, Wakeup()).asleep == hw.asleep
  {
    var pulses := Repeat(BootPulse(), BOOT_PULSES);
    var on := Apply(hw, MotorOn);
    assert ApplyAll(hw, [MotorOn]) == on;
    assert MotorStops(hw, [MotorOn]) == 0;
    assert Wakeup() == [MotorOn] + pulses + [MotorOff];
    RepeatedPulses(on, BOOT_PULSES);
    MotorStopsAppend(hw, [MotorOn], pulses);
    ApplyAllAppend(hw, [MotorOn], pulses);
    var after := ApplyAll(on, pulses);
    assert ApplyAll(after, [MotorOff]) == Apply(after, MotorOff);
    assert MotorStops(after, [MotorOff]) == 0;
    MotorStopsAppend(hw, [MotorOn] + pulses, [MotorOff]);
    ApplyAllAppend(hw, [MotorOn] + pulses, [MotorOff]);
  }

  /** `delay_s(seconds)`: ten 100 ms waits per second, none for a count that
      is not positive. */
  function DelaySeconds(seconds: int): (r: seq<Event>)
    ensures |r| == if seconds <= 0 then 0 else 10 * seconds
    ensures forall i :: 0 <= i < |r| ==> r[i] == Delay(100)
    decreases seconds
  {
    if seconds <= 0 then [] else Repeat([Delay(100)], 10) + DelaySeconds(seconds - 1)
  }

  /** `get_speed()`: the dial pins read from PINA packed into a nibble with
      PA3 as bit 0, PA2 as bit 1, PA1 as bit 2 and PA0 as bit 3. */
  function GetSpeed(pina: bv8): (speed: bv8)
    ensures speed < 16
    ensures IsSet(speed, 0) == IsSet(pina, NIBBLE3_BIT)
    ensures IsSet(speed, 1) == IsSet(pina, NIBBLE2_BIT)
    ensures IsSet(speed, 2) == IsSet(pina, NIBBLE1_BIT)
    ensures IsSet(speed, 3) == IsSet(pina, NIBBLE0_BIT)
  {
    IsSet(pina, NIBBLE3_BIT) | (IsSet(pina, NIBBLE2_BIT) << 1)
    | (IsSet(pina, NIBBLE1_BIT) << 2) | (IsSet(pina, NIBBLE0_BIT) << 3)
  }

  /** Only the four dial pins matter, and the dial value is their binary
      number with PA0 as the most significant digit. */
  lemma GetSpeedValue(pina: bv8)
    ensures GetSpeed(pina) == GetSpeed(pina & 0x0F)
    ensures GetSpeed(pina) as nat
         == 8 * BitOf(pina, 0) + 4 * BitOf(pina, 1) + 2 * BitOf(pina, 2) + BitOf(pina, 3)
  {
    var s := GetSpeed(pina);
    IsSetIsBitOf(pina, 0);
    IsSetIsBitOf(pina, 1);
    IsSetIsBitOf(pina, 2);
    IsSetIsBitOf(pina, 3);
    NibbleValue(s);
  }

  lemma NibbleValue(s: bv8)
    requires s < 16
    ensures s as nat == 8 * IsSet(s, 3) as nat + 4 * IsSet(s, 2) as nat + 2 * IsSet(s, 1) as nat + IsSet(s, 0) as nat
  {
  }

  /** Reading the dial reverses the order of the four low bits, so reading
      twice gives back the pins, and every speed 0..15 is reachable: it is the
      reading of its own reversal. */
  lemma GetSpeedInvolution(pina: bv8)
    ensures GetSpeed(GetSpeed(pina)) == pina & 0x0F
    ensures pina < 16 ==> GetSpeed(GetSpeed(pina)) == pina
  {
    var s := GetSpeed(pina);
    var t := GetSpeed(s);
    forall j: BitIndex
      ensures IsSet(t, j) == IsSet(pina & 0x0F, j)
    {
    }
    BitsDetermineByte(t, pina & 0x0F);
  }

  // ---------------------------------------------------------------------
  // Pin directions

  /** The DDRA writes of `setup()`: the motor pin becomes an output and the
      four dial pins inputs; every other bit is left as it was. */
  function SetupDdra(d: bv8): (r: bv8)
    ensures IsSet(r, FEED_BIT) == 1
    ensures IsSet(r, NIBBLE0_BIT) == 0 && IsSet(r, NIBBLE1_BIT) == 0
    ensures IsSet(r, NIBBLE2_BIT) == 0 && IsSet(r, NIBBLE3_BIT) == 0
    ensures forall j: BitIndex :: 4 <= j < 7 ==> IsSet(r, j) == IsSet(d, j)
  {
    ClearBit(ClearBit(ClearBit(ClearBit(SetBit(d, FEED_BIT),
      NIBBLE0_BIT), NIBBLE1_BIT), NIBBLE2_BIT), NIBBLE3_BIT)
  }

  /** DDRA when `main` reaches its wiggle: cleared, then the serial TX pin
      made an output in a debug build, then `setup()`. Exactly the motor pin,
      and in a debug build the TX pin, are outputs; the power-gate pin PA5 is
      never made one, so `pwr_on` only switches its pull-up. */
  function ConfigureDdra(debug: bool): (d: bv8)
    ensures forall j: BitIndex :: IsSet(d, j) == 1 <==> j == FEED_BIT || (debug && j == TX_BIT)
    ensures IsSet(d, PWRON_BIT) == 0
  {
    var cleared: bv8 := 0;
    assert forall j: BitIndex :: IsSet(cleared, j) == 0;
    var serial := if debug then SetBit(cleared, TX_BIT) else cleared;
    SetupDdra(serial)
  }

  /** DDRA as the unused `PWRON_DDR` definition (main.c:37) intends: `setup()`
      also makes the power-gate pin an output, so that PORTA bit 5 drives the
      gate. This is the reading of `Hw.Powered()` the rest of the model uses. */
  function ConfigureDdraIntended(debug: bool): (d: bv8)
    ensures forall j: BitIndex ::
      IsSet(d, j) == 1 <==> j == FEED_BIT || j == PWRON_BIT || (debug && j == TX_BIT)
    ensures IsSet(d, PWRON_BIT) == 1
  {
    SetBit(ConfigureDdra(debug), PWRON_BIT)
  }
}

=== FILE: uart.dfy ===
/**
 The bit-banged serial transmitter of libs/serialdebug.c.

 The output is a trace of line segments: the line held at one level for a
 number of microseconds. A byte goes out as one frame of ten segments: the
 start bit (low), eight data bits least significant first, and the stop
 bit(s) (high), which leave the line idle high. Bit period and stop-bit count
 come from serialsettings.h, which is not part of this model, so they are
 parameters.
 */
module SoftUart {
  import opened Wrappers

  datatype Level = Low | High

  datatype Segment = Segment(level: Level, micros: nat)

  /** `SERIALDEBUG_MICROSECONDS_PER_BIT` and `SERIALDEBUG_STOP_BITS`. */
  datatype Config = Config(microsPerBit: nat, stopBits: nat)

  const FRAME_SEGMENTS := 10

  /** Data bit i of c as a line level. */
  function DataLevel(c: bv8, i: nat): Level
    requires i < 8
  {
    if (c >> i) & 1 == 1 then High else Low
  }

  function BitOfLevel(l: Level): bv8
  {
    if l == High then 1 else 0
  }

  function StartSegment(cfg: Config): Segment
  {
    Segment(Low, cfg.microsPerBit)
  }

  function StopSegment(cfg: Config): Segment
  {
    Segment(High, cfg.microsPerBit * cfg.stopBits)
  }

  function DataSegment(cfg: Config, c: bv8, i: nat): Segment
    requires i < 8
  {
    Segment(DataLevel(c, i), cfg.microsPerBit)
  }

  /** The frame for one byte. */
  function Frame(cfg: Config, c: bv8): (f: seq<Segment>)
    ensures |f| == FRAME_SEGMENTS
    ensures f[0] == StartSegment(cfg) && f[FRAME_SEGMENTS - 1] == StopSegment(cfg)
    ensures forall i :: 1 <= i <= 8 ==> f[i] == DataSegment(cfg, c, i - 1)
  {
    [StartSegment(cfg),
     DataSegment(cfg, c, 0), DataSegment(cfg, c, 1), DataSegment(cfg, c, 2), DataSegment(cfg, c, 3),
     DataSegment(cfg, c, 4), DataSegment(cfg, c, 5), DataSegment(cfg, c, 6), DataSegment(cfg, c, 7),
     StopSegment(cfg)]
  }

  /** The data-bit mask of `usart_putchar` after k shifts. */
  function BitMask(k: nat): bv8
    requires k <= 8
  {
    (1 as bv8) << k
  }

  /** The mask tests bit k while k < 8, and the eighth shift clears it. */
  lemma BitMaskStep(c: bv8, k: nat)
    requires k <= 8
    ensures BitMask(k) == 0 <==> k == 8
    ensures k < 8 ==> BitMask(k) << 1 == BitMask(k + 1)
    ensures k < 8 ==> (BitMask(k + 1) == 0 <==> k == 7)
    ensures k < 8 ==> (c & BitMask(k) != 0 <==> DataLevel(c, k) == High)
  {
    match k
    case 0 => assert BitMask(0) == 1;
    case 1 => assert BitMask(1) == 2;
    case 2 => assert BitMask(2) == 4;
    case 3 => assert BitMask(3) == 8;
    case 4 => assert BitMask(4) == 16;
    case 5 => assert BitMask(5) == 32;
    case 6 => assert BitMask(6) == 64;
    case 7 => assert BitMask(7) == 128;
    case 8 => assert BitMask(8) == 0;
  }

  /** Sending data bit k extends the part of the frame sent so far by one
      segment; after the eighth only the stop segment is missing. */
  lemma FramePrefixStep(cfg: Config, c: bv8, k: nat)
    requires k <= 8
    ensures k < 8 ==> Frame(cfg, c)[..2 + k] == Frame(cfg, c)[..1 + k] + [DataSegment(cfg, c, k)]
    ensures k == 8 ==> Frame(cfg, c)[..1 + k] + [StopSegment(cfg)] == Frame(cfg, c)
  {
  }

  /** The `int` value of a signed `char` with bit pattern c. */
  function SignExtend(c: bv8): (v: int)
    ensures -128 <= v < 128 && v % 256 == c as int
  {
    if c < 0x80 then c as int else c as int - 256
  }

  /** `usart_putchar(c, stream)`: `c` is the bit pattern of the `char`
      argument; `ret` is the `int` it returns. avr-gcc's `char` is signed, so
      the value comes back sign-extended. */
  method PutChar(cfg: Config, c: bv8) returns (line: seq<Segment>, ret: int)
    ensures line == Frame(cfg, c)
    ensures -128 <= ret < 128 && ret % 256 == c as int
  {
    // start bit
    line := [StartSegment(cfg)];
    // data bits: the 8-bit mask walks from 0x01 until the shift clears it
    var bitMask: bv8 := 0x01;
    ghost var sent: nat := 0;
    BitMaskStep(c, 0);
    while bitMask != 0
      invariant sent <= 8 && bitMask == BitMask(sent)
      invariant bitMask == 0 <==> sent == 8
      invariant line == Frame(cfg, c)[..1 + sent]
      decreases 8 - sent
    {
      BitMaskStep(c, sent);
      FramePrefixStep(cfg, c, sent);
      if c & bitMask != 0 {
        line := line + [Segment(High, cfg.microsPerBit)];
      } else {
        line := line + [Segment(Low, cfg.microsPerBit)];
      }
      bitMask := bitMask << 1;
      sent := sent + 1;
    }
    // stop bit(s)
    FramePrefixStep(cfg, c, sent);
    line := line + [StopSegment(cfg)];
    ret := SignExtend(c);
  }

  /** Eight bits, each 0 or 1, as the byte with b0 as its bit 0. */
  function Pack(b0: bv8, b1: bv8, b2: bv8, b3: bv8, b4: bv8, b5: bv8, b6: bv8, b7: bv8): bv8
  {
    b0 | (b1 << 1) | (b2 << 2) | (b3 << 3) | (b4 << 4) | (b5 << 5) | (b6 << 6) | (b7 << 7)
  }

  lemma PackUnpack(c: bv8)
    ensures Pack(c & 1, (c >> 1) & 1, (c >> 2) & 1, (c >> 3) & 1,
                 (c >> 4) & 1, (c >> 5) & 1, (c >> 6) & 1, (c >> 7) & 1) == c
  {
  }

  lemma UnpackPack(b0: bv8, b1: bv8, b2: bv8, b3: bv8, b4: bv8, b5: bv8, b6: bv8, b7: bv8)
    requires b0 <= 1 && b1 <= 1 && b2 <= 1 && b3 <= 1 && b4 <= 1 && b5 <= 1 && b6 <= 1 && b7 <= 1
    ensures var a := Pack(b0, b1, b2, b3, b4, b5, b6, b7);
      a & 1 == b0 && (a >> 1) & 1 == b1 && (a >> 2) & 1 == b2 && (a >> 3) & 1 == b3
      && (a >> 4) & 1 == b4 && (a >> 5) & 1 == b5 && (a >> 6) & 1 == b6 && (a >> 7) & 1 == b7
  {
  }

  /** The byte carried by the levels of eight data segments, the first one
      as bit 0. */
  function Assemble(data: seq<Segment>): bv8
    requires |data| == 8
  {
    Pack(BitOfLevel(data[0].level), BitOfLevel(data[1].level), BitOfLevel(data[2].level),
         BitOfLevel(data[3].level), BitOfLevel(data[4].level), BitOfLevel(data[5].level),
         BitOfLevel(data[6].level), BitOfLevel(data[7].level))
  }

  lemma BitOfDataLevel(c: bv8, i: nat)
    requires i < 8
    ensures BitOfLevel(DataLevel(c, i)) == (c >> i) & 1
  {
  }

  /** Reassembling the data segments of a frame gives the byte back. */
  lemma AssembleFrameData(cfg: Config, c: bv8)
    ensures Assemble(Frame(cfg, c)[1..9]) == c
  {
    var d := Frame(cfg, c)[1..9];
    BitOfDataLevel(c, 0);
    BitOfDataLevel(c, 1);
    BitOfDataLevel(c, 2);
    BitOfDataLevel(c, 3);
    BitOfDataLevel(c, 4);
    BitOfDataLevel(c, 5);
    BitOfDataLevel(c, 6);
    BitOfDataLevel(c, 7);
    assert c >> 0 == c;
    PackUnpack(c);
  }

  /** Each data level is recovered from the byte the segments assemble to. */
  lemma DataLevelsOfAssemble(data: seq<Segment>)
    requires |data| == 8
    ensures forall i :: 0 <= i < 8 ==> DataLevel(Assemble(data), i) == data[i].level
  {
    var a := Assemble(data);
    UnpackPack(BitOfLevel(data[0].level), BitOfLevel(data[1].level), BitOfLevel(data[2].level),
               BitOfLevel(data[3].level), BitOfLevel(data[4].level), BitOfLevel(data[5].level),
               BitOfLevel(data[6].level), BitOfLevel(data[7].level));
    forall i | 0 <= i < 8
      ensures DataLevel(a, i) == data[i].level
    {
      BitOfDataLevel(a, i);
      assert a >> 0 == a;
    }
  }

  /** A receiver's reading of ten segments: a byte when they have the shape
      and timing of a frame, nothing otherwise. */
  function DecodeFrame(cfg: Config, f: seq<Segment>): (r: Option<bv8>)
    ensures r.Some? ==> f == Frame(cfg, r.value)
  {
    if |f| == FRAME_SEGMENTS && f[0] == StartSegment(cfg) && f[FRAME_SEGMENTS - 1] == StopSegment(cfg)
       && forall i :: 1 <= i <= 8 ==> f[i].micros == cfg.microsPerBit
    then
      var data := f[1..9];
      DataLevelsOfAssemble(data);
      assert f == Frame(cfg, Assemble(data));
      Some(Assemble(data))
    else None
  }

  /** Decoding a frame gives back the byte it was made from. */
  lemma DecodeFrameOfFrame(cfg: Config, c: bv8)
    ensures DecodeFrame(cfg, Frame(cfg, c)) == Some(c)
  {
    AssembleFrameData(cfg, c);
  }

  /** The bytes `c`, one frame after the other. */
  function Transmit(cfg: Config, bytes: seq<bv8>): (line: seq<Segment>)
    ensures |line| == FRAME_SEGMENTS * |bytes|
    ensures |bytes| > 0 ==> line[|line| - 1].level == High
    decreases |bytes|
  {
    if |bytes| == 0 then [] else Frame(cfg, bytes[0]) + Transmit(cfg, bytes[1..])
  }

  lemma {:induction false} TransmitAppend(cfg: Config, a: seq<bv8>, b: seq<bv8>)
    ensures Transmit(cfg, a + b) == Transmit(cfg, a) + Transmit(cfg, b)
    decreases |a|
  {
    if |a| == 0 {
      assert a + b == b;
    } else {
      assert (a + b)[0] == a[0] && (a + b)[1..] == a[1..] + b;
      TransmitAppend(cfg, a[1..], b);
    }
  }

  /** A receiver's reading of a whole line trace, frame by frame. */
  function DecodeLine(cfg: Config, line: seq<Segment>): Option<seq<bv8>>
    decreases |line|
  {
    if |line| == 0 then Some([])
    else if |line| < FRAME_SEGMENTS then None
    else
      match DecodeFrame(cfg, line[..FRAME_SEGMENTS])
      case None => None
      case Some(c) =>
        match DecodeLine(cfg, line[FRAME_SEGMENTS..])
        case None => None
        case Some(rest) => Some([c] + rest)
  }

  /** A receiver reads back exactly the bytes that were sent. */
  lemma {:induction false} DecodeLineOfTransmit(cfg: Config, bytes: seq<bv8>)
    ensures DecodeLine(cfg, Transmit(cfg, bytes)) == Some(bytes)
    decreases |bytes|
  {
    if |bytes| > 0 {
      var line := Transmit(cfg, bytes);
      assert line[..FRAME_SEGMENTS] == Frame(cfg, bytes[0]);
      assert line[FRAME_SEGMENTS..] == Transmit(cfg, bytes[1..]);
      DecodeFrameOfFrame(cfg, bytes[0]);
      DecodeLineOfTransmit(cfg, bytes[1..]);
      assert [bytes[0]] + bytes[1..] == bytes;
    }
  }

  /** A line trace that decodes is the transmission of what it decodes to. */
  lemma {:induction false} TransmitOfDecodeLine(cfg: Config, line: seq<Segment>)
    requires DecodeLine(cfg, line).Some?
    ensures Transmit(cfg, DecodeLine(cfg, line).value) == line
    decreases |line|
  {
    if |line| > 0 {
      var c := DecodeFrame(cfg, line[..FRAME_SEGMENTS]).value;
      var rest := DecodeLine(cfg, line[FRAME_SEGMENTS..]).value;
      TransmitOfDecodeLine(cfg, line[FRAME_SEGMENTS..]);
      assert ([c] + rest)[0] == c && ([c] + rest)[1..] == rest;
      assert line == line[..FRAME_SEGMENTS] + line[FRAME_SEGMENTS..];
    }
  }

  /** 'A' (0x41) goes out as start, 1,0,0,0,0,0,1,0, stop. */
  lemma FrameOfA(cfg: Config)
    ensures var levels := seq(FRAME_SEGMENTS, i requires 0 <= i < FRAME_SEGMENTS => Frame(cfg, 0x41)[i].level);
      levels == [Low, High, Low, Low, Low, Low, Low, High, Low, High]
  {
  }
}

=== FILE: wrappers.dfy ===
/** The optional value used where the firmware works with a value that may be
    missing: a null string pointer, or a line trace that is not a well-formed
    sequence of frames. */
module Wrappers {

  datatype Option<+T> = None | Some(value: T)
}
